=== FILE: README.md ===
# Route request protocol of the Bevy plugin example, in Dafny

This project models the route request protocol of the plugin example in
`skills/create_bevy_plugin/examples/plugin-example`, and proves properties of
the model.

- **`computePathAsync`** submits one route computation to the path provider.
  It reads the path status straight away. While the status reads `NoPath`, it
  reads it again every 0.01 s. `Success` resolves with the path and its
  waypoints. Any other status resolves with a failure naming that status. A
  timer (5 s by default) resolves with a timeout failure. The first resolve
  settles the request.
- **`computePathWithRetry`** makes up to `maxRetries` attempts and waits
  `retryDelay` between attempts. It returns the first success unchanged.
  Otherwise it returns a failure that names `maxRetries` and the last
  error.
- **`pathCalculateSystem`** scans the frame's `RVOAgent` changes. It skips
  entities that are gone, entities that carry `PlayerUnit`, and changes that
  do not add the component. It warns about entities without a `Transform`. For
  every other entity it starts a request with 3 attempts 0.2 s apart, from the
  entity's position to a fixed target. When the request settles, a success
  inserts the initial `PathInfo` and `Movable`. A failure is only logged.

Files:

- `text.dfy` (module `Text`): renders whole numbers as decimal text, as a
  template string does, and reads them back.
- `pathfinding_async.dfy` (module `PathfindingAsync`): the poll/timeout race
  and the retry loop.
- `path_calculate_system.dfy` (module `PathCalculateSystem`): the entity
  store, the scan that picks requests, and the callbacks that apply a result.

## Time and the provider

Time is counted in ticks of 0.01 s, the poll interval. A timeout of `t`
seconds fires at tick `100 * t`. The provider is not called. Each attempt is
described by a `PathRun`, which gives:

- the status the poll reads at each tick;
- the path handle;
- the waypoints `GetWaypoints` returns.

`computePathWithRetry` runs attempt `a` (counted from 1) against `runs(a)`.

**Tie rule.** The source does not say what happens when a poll and the timer
fall on the same tick, so the model fixes a rule:

- The first poll runs synchronously, before the timer can fire. It is always
  observed, even with a zero timeout.
- A later poll on the timer's own tick loses to the timer.

So the polls at ticks `0 .. max(100*t, 1) - 1` are observed (`PollWindow`).
If all of them read `NoPath`, the request times out at tick `100*t`.

**Settling.** The loop in `ComputePathAsync` stops at the first resolve, and
its result is the request's value. After a timeout the source's poll keeps
running and may call `resolve` again; the promise ignores that call. The
model does not carry the poll past that point (see "Left out").

## Behaviour of the code worth knowing

- **No existence re-check.** The callback that applies a result does not
  re-check that the entity still exists. There is also no per-entity
  generation counter. Neither is modelled, and no lemma claims either.
- **Insert into a dropped entity.** The entity store is not part of this
  model. `World.InsertPathInfo` and `World.InsertMovable` refuse an entity
  the store no longer holds. The callback then raises and the catch handler
  logs it. This is a modelling assumption about the store, not a check the
  callback makes.
- **`IsArriveGoal`.** It is computed as `1 >= size - 1`. On a route that can
  be read, it is true exactly when the route has 2 waypoints.
- **Fewer than 2 waypoints.** A success with fewer than 2 waypoints has no
  `waypoints[1]`. The callback raises, the catch handler logs it, and nothing
  is inserted (`PathException`). Such a success is not treated as a route
  whose flags are set.
- **Statuses.** They are Roblox's `Enum.PathStatus` values. `NoPath` is the
  status that keeps the poll going.
- **Messages.** Error messages are the code's own strings. An enum item
  renders as `Enum.PathStatus.<Name>`.
- **A finished NoPath.** `ComputeAsync` yields until the computation is
  done, so the status the poll reads is already final. An attempt whose
  computation ended with NoPath therefore never resolves from the poll: it
  ends with the timeout error after the full timeout
  (`ScenarioFinishedNoPath`).
- **Retry delay.** The doc comment of `computePathWithRetry` gives 0.5 s
  as the default delay, but the code's default is 0.2 s. The system passes
  3 attempts and 0.2 s explicitly, and the model uses those values.

## Model

| member | source | states |
|---|---|---|
| `PathfindingAsync.RaceFrom` | skills/create_bevy_plugin/examples/plugin-example/utils/pathfinding-async.ts:40-61 | From a poll onwards, the request settles no earlier than that poll and no later than the timer's tick. A success carries exactly the run's path and waypoints and no error. A failure carries an error and neither path nor waypoints. |
| `PathfindingAsync.RaceDecided` | skills/create_bevy_plugin/examples/plugin-example/utils/pathfinding-async.ts:40-64 | Suppose the first poll that reads a status other than NoPath comes before the timer. Then the request settles at that poll's tick: Success with the waypoints, any other status with the error naming it. |
| `PathfindingAsync.RaceTimesOut` | skills/create_bevy_plugin/examples/plugin-example/utils/pathfinding-async.ts:32-37 | If every poll before the timer reads NoPath, the request settles at the timer's tick with the timeout error. |
| `PathfindingAsync.RaceCases` | skills/create_bevy_plugin/examples/plugin-example/utils/pathfinding-async.ts:25-65 | Every request is settled either by the timer or by a first decisive poll. |
| `PathfindingAsync.RaceSuccessIff` | skills/create_bevy_plugin/examples/plugin-example/utils/pathfinding-async.ts:40-60 | A request succeeds if and only if the first decisive poll before the timer reads Success. |
| `PathfindingAsync.ComputePathAsync` | skills/create_bevy_plugin/examples/plugin-example/utils/pathfinding-async.ts:19-66 | The loop polls first without waiting, then once per tick while the status reads NoPath. Its result and settle tick are the first decisive poll's verdict and tick, or the timeout error and the timer's tick. |
| `PathfindingAsync.RecordedError` | skills/create_bevy_plugin/examples/plugin-example/utils/pathfinding-async.ts:94 | A failed attempt's error text is recorded unchanged. A missing or empty error is recorded as "未知错误". The recorded text is never empty. |
| `PathfindingAsync.RetryFrom` | skills/create_bevy_plugin/examples/plugin-example/utils/pathfinding-async.ts:87-105 | The loop never makes more than max(maxRetries, 0) attempts. A successful outcome is exactly the result of its last attempt. Every outcome has exactly one of error and waypoints. |
| `PathfindingAsync.RetryReturnsFirstSuccess` | skills/create_bevy_plugin/examples/plugin-example/utils/pathfinding-async.ts:87-92 | If attempt a is the first success, the loop returns that attempt's result unchanged after exactly a attempts. |
| `PathfindingAsync.RetryExhausted` | skills/create_bevy_plugin/examples/plugin-example/utils/pathfinding-async.ts:85-105 | If every attempt fails, the loop makes exactly max(maxRetries, 0) attempts. Its error names maxRetries and the last attempt's recorded error, which is empty when no attempt was made. |
| `PathfindingAsync.RetryCases` | skills/create_bevy_plugin/examples/plugin-example/utils/pathfinding-async.ts:87-99 | Either every allowed attempt fails, or one of them is the first success. |
| `PathfindingAsync.RetrySuccessIff` | skills/create_bevy_plugin/examples/plugin-example/utils/pathfinding-async.ts:87-105 | The loop succeeds if and only if some attempt within the budget succeeds. |
| `PathfindingAsync.RetryMessageInjective` | skills/create_bevy_plugin/examples/plugin-example/utils/pathfinding-async.ts:102-104 | The exhaustion message determines both maxRetries and the last error: two messages are equal only when both parts are equal. |
| `PathfindingAsync.TimeoutIsNotStatusFailure` | skills/create_bevy_plugin/examples/plugin-example/utils/pathfinding-async.ts:32-59 | The timeout error differs from every status failure's error. |
| `PathfindingAsync.ScenarioSuccessAfterThreeNoPath` | skills/create_bevy_plugin/examples/plugin-example/utils/pathfinding-async.ts:40-64 | Three NoPath reads, then Success with two waypoints, under a 1 s timeout: the request succeeds with those two waypoints at tick 3. |
| `PathfindingAsync.ScenarioFinishedNoPath` | skills/create_bevy_plugin/examples/plugin-example/utils/pathfinding-async.ts:29-60 | A path whose status stays NoPath ends with the timeout error at the timer's tick. |
| `PathfindingAsync.ScenarioAlwaysFailing` | skills/create_bevy_plugin/examples/plugin-example/utils/pathfinding-async.ts:85-105 | A provider that always reports ClosestOutOfRange, with 3 retries: exactly 3 attempts are made. The error names 3 and that status's failure message. |
| `PathfindingAsync.ComputePathWithRetry` | skills/create_bevy_plugin/examples/plugin-example/utils/pathfinding-async.ts:78-106 | The loop's result and attempt count are those of `Retry`. It waits once fewer times than it attempts, so never after the last attempt. The elapsed time is the attempts' polling time plus one retryDelay per wait. |
| `PathCalculateSystem.World.InsertPathInfo` | skills/create_bevy_plugin/examples/plugin-example/systems/path-calculate-system.ts:75-85 | A live entity's PathInfo is set, and nothing else changes. A dropped entity is refused and the store is unchanged. |
| `PathCalculateSystem.World.InsertMovable` | skills/create_bevy_plugin/examples/plugin-example/systems/path-calculate-system.ts:88 | A live entity is marked Movable, and nothing else changes. A dropped entity is refused and the store is unchanged. |
| `PathCalculateSystem.RequestsExactly` | skills/create_bevy_plugin/examples/plugin-example/systems/path-calculate-system.ts:14-60 | A request is started if and only if some change adds an RVOAgent to a live entity that has no PlayerUnit and has a Transform. The request starts at that Transform's position and goes to the fixed target with 3 attempts 0.2 s apart. |
| `PathCalculateSystem.RequestsCount` | skills/create_bevy_plugin/examples/plugin-example/systems/path-calculate-system.ts:14-60 | The scan starts exactly one request per change record that adds an RVOAgent to a live entity without PlayerUnit that has a Transform. |
| `PathCalculateSystem.UpdatesNeverStart` | skills/create_bevy_plugin/examples/plugin-example/systems/path-calculate-system.ts:25 | Changes that update or remove an RVOAgent, rather than add it, start no request. |
| `PathCalculateSystem.SkippedEntitiesNeverStart` | skills/create_bevy_plugin/examples/plugin-example/systems/path-calculate-system.ts:16-60 | Every started request is for a live entity that has no PlayerUnit and whose Transform is at the request's start. It uses the fixed target, the long-range agent parameters, 3 attempts and a 20-tick (0.2 s) delay. |
| `PathCalculateSystem.WarningsExactly` | skills/create_bevy_plugin/examples/plugin-example/systems/path-calculate-system.ts:37-42 | A missing-Transform warning is logged if and only if an RVOAgent is added to a live entity that has no PlayerUnit and no Transform. |
| `PathCalculateSystem.WarningsCount` | skills/create_bevy_plugin/examples/plugin-example/systems/path-calculate-system.ts:14-42 | The scan logs exactly one warning per change record that adds an RVOAgent to a live entity without PlayerUnit and without Transform. |
| `PathCalculateSystem.RunPathCalculate` | skills/create_bevy_plugin/examples/plugin-example/systems/path-calculate-system.ts:13-99 | The scan starts exactly the requests of `Requests` and logs exactly the warnings of `Warnings`, in change order. It does not modify the world. |
| `PathCalculateSystem.InitialPathInfo` | skills/create_bevy_plugin/examples/plugin-example/systems/path-calculate-system.ts:69-73 | The route can be read if and only if it has at least 2 waypoints. The PathInfo then starts at waypoint 0, heads for waypoint 1, has the goal at waypoint 1's position and keeps the returned path. It has not arrived at the next point. It has arrived at the goal if and only if the route has exactly 2 waypoints. |
| `PathCalculateSystem.CompletionOfFailure` | skills/create_bevy_plugin/examples/plugin-example/systems/path-calculate-system.ts:89-91 | A failed result leaves the world unchanged and logs its error. |
| `PathCalculateSystem.CompletionOfSuccess` | skills/create_bevy_plugin/examples/plugin-example/systems/path-calculate-system.ts:62-88 | A live entity whose route has at least 2 waypoints gets the initial PathInfo and Movable. Its other components and every other entity are unchanged, and nothing is logged. |
| `PathCalculateSystem.CompletionFrame` | skills/create_bevy_plugin/examples/plugin-example/systems/path-calculate-system.ts:61-95 | Applying any result keeps the set of entities and every other entity unchanged. Whenever a warning is logged, nothing changes at all. |
| `PathCalculateSystem.ApplyPathResult` | skills/create_bevy_plugin/examples/plugin-example/systems/path-calculate-system.ts:61-95 | The callbacks leave the world and the warning as `Completion` describes, starting from the world as it is when the result arrives. |
| `PathCalculateSystem.RequestFailureLeavesWorld` | skills/create_bevy_plugin/examples/plugin-example/systems/path-calculate-system.ts:54-91 | A request whose 3 attempts all fail leaves the world unchanged. It logs the error that names 3 attempts and the last error. |
| `PathCalculateSystem.RequestSuccessAttaches` | skills/create_bevy_plugin/examples/plugin-example/systems/path-calculate-system.ts:54-88 | Suppose the first successful attempt returns a route of at least 2 waypoints. Then a live entity gets that attempt's path, heads for the route's second waypoint, and becomes Movable. |

## Left out

- The path provider (`PathfindingService.CreatePath`, `ComputeAsync`,
  `GetWaypoints`) and the scheduler (`task.delay`, `task.wait`,
  `task.cancel`, `task.spawn`) and the Promise machinery. They are replaced
  by a status per tick and tick counts. The agent parameters are recorded in
  each request but do not influence the modelled provider.
- Polling after a timeout. The source's poll keeps reading the status, and
  may call `resolve` again, until a status other than NoPath appears. The
  model ends the request at its first resolve. An attempt whose computation
  finished with NoPath never reads another status, so its poll runs every
  0.01 s for as long as the game runs. Each poll schedules the next from
  inside its own call, so the chain of nested calls also grows. One entity
  whose three attempts all end this way leaves three such polls running.
- ComputePathAsync, ComputePathWithRetry: the timer is armed only after
  `ComputeAsync` has returned, so the timeout bounds the polling and not the
  computation itself. Tick 0 is the first poll, and `elapsed` counts the
  polling and the retry delays only; the time spent in `CreatePath` and
  `ComputeAsync` is in no tick.
- ComputePathWithRetry, Retry and RetryExhausted: a provider that raises
  (`CreatePath` or `ComputeAsync` throwing) is not modelled. In the source
  the rejected attempt ends the loop early, with no further attempts and no
  aggregated failure, and the system's catch handler logs the exception. The
  model's "exactly max(maxRetries, 0) attempts" holds only because a
  `PathRun` cannot raise.
- ComputePathWithRetry: `maxRetries` is a whole number here, and unbounded.
  The source's numbers are doubles. 2.5 would make 2 attempts and render as
  "2.5" in the message. Above 2^53 the source's `attempt++` stops changing
  `attempt`. The same holds for `timeout`. The system only passes 3 and 5.
- Fractional timeouts: a timeout is a whole number of seconds. The source
  only uses the 5 s default.
- The real length of `task.wait(0.01)`, which waits at least one frame. A
  wait is modelled as exactly one tick.
- Positions are exact reals that are never computed with. No floating-point
  arithmetic is modelled.
- `showPathPoints` (debug markers in the scene) and the commented-out print.
- Logging: warnings are values (`Warning`), not formatted text.
- The entity store and its change query are not part of this model. The
  store is a map from entity to components. The change query is the
  sequence of change records the scan receives. The store's handling of an
  insert into a dropped entity is assumed, as described above.
- Scheduling the plugin (`plugins.ts` of both examples), the component
  declarations with their defaults (`contracts/components.ts`, used only as
  the shape of `PathInfo`), and the Markdown-to-HTML build script
  (`convert-md.js`).
- Two triggers for the same entity that overlap in time are not ordered
  against each other. Each request's result is applied to whatever the world
  holds when it arrives, which is all the code does.

=== FILE: path_calculate_system.dfy ===
/** The triggering system of the plugin example (pathCalculateSystem): it
    starts a route request for every entity that has just gained an RVOAgent,
    and, when the request settles, gives the entity its initial PathInfo and
    the Movable marker.

    The system's work is split in two steps, as it happens in time: this
    frame's scan of the RVOAgent changes picks the requests to start
    (RunPathCalculate), and the request's callbacks later apply the settled
    result to whatever the world holds by then (ApplyPathResult). */
module PathCalculateSystem {
  import opened PathfindingAsync

  type Entity = nat

  /** The RVOAgent component; its contents play no part here. */
  datatype RVOAgent = RVOAgent(agentId: nat)

  /** The Transform component, reduced to the position of its cframe. */
  datatype Transform = Transform(position: Vector3)

  /** The PathInfo component: progress along a computed route. */
  datatype PathInfo = PathInfo(
    currentWaypoint: nat,
    goalPosition: Vector3,
    isArriveGoal: bool,
    isArriveNextPoint: bool,
    nextWayPoint: nat,
    path: PathHandle)

  /** The components of one entity that the system reads or writes. The
      PlayerUnit and Movable components are markers. */
  datatype Components = Components(
    rvoAgent: Option<RVOAgent>,
    transform: Option<Transform>,
    playerUnit: bool,
    pathInfo: Option<PathInfo>,
    movable: bool)

  /** One record of the RVOAgent change query. */
  datatype AgentChange = AgentChange(entity: Entity, oldValue: Option<RVOAgent>, newValue: Option<RVOAgent>)

  datatype AgentParameters = AgentParameters(
    agentCanJump: bool,
    agentHeight: int,
    agentMaxSlope: int,
    agentRadius: int,
    waypointSpacing: int)

  /** Agent parameters tuned for long routes. */
  const LongRangeParams: AgentParameters := AgentParameters(true, 5, 89, 6, 10)

  /** The fixed goal every request heads for. */
  const TargetPosition: Vector3 := Vector3(58.727, 1.5, 25.179)

  /** Attempts per request. */
  const RequestRetries: int := 3

  /** Delay between attempts: 0.2 s in ticks. */
  const RequestRetryDelay: nat := 20

  /** The arguments one computePathWithRetry call is started with. */
  datatype PathRequest = PathRequest(
    entity: Entity,
    start: Vector3,
    target: Vector3,
    params: AgentParameters,
    maxRetries: int,
    retryDelay: nat)

  /** The warnings the system logs. */
  datatype Warning =
    | NoTransform(entity: Entity)
    | PathFailed(entity: Entity, error: Option<string>)
    | PathException(entity: Entity)

  /** The entity store, updated in place by inserts. */
  class World {
    var entities: map<Entity, Components>

    constructor (entities: map<Entity, Components>)
      ensures this.entities == entities
    {
      this.entities := entities;
    }

    /** Inserts (or replaces) the PathInfo of a live entity. An entity the
        store no longer holds is refused: `ok` is false and nothing changes. */
    method InsertPathInfo(e: Entity, info: PathInfo) returns (ok: bool)
      modifies this
      ensures ok == (e in old(entities))
      ensures entities == if ok then old(entities)[e := old(entities)[e].(pathInfo := Some(info))]
                          else old(entities)
    {
      ok := e in entities;
      if ok {
        entities := entities[e := entities[e].(pathInfo := Some(info))];
      }
    }

    /** Marks a live entity Movable; refused for an entity the store no
        longer holds. */
    method InsertMovable(e: Entity) returns (ok: bool)
      modifies this
      ensures ok == (e in old(entities))
      ensures entities == if ok then old(entities)[e := old(entities)[e].(movable := true)]
                          else old(entities)
    {
      ok := e in entities;
      if ok {
        entities := entities[e := entities[e].(movable := true)];
      }
    }
  }

  // ---------------------------------------------------------------------
  // Selecting the requests to start

  /** The change is an RVOAgent being added, not updated or removed. */
  predicate IsAdded(c: AgentChange) {
    c.newValue.Some? && c.oldValue.None?
  }

  /** The entity still exists and carries no PlayerUnit. */
  predicate IsCandidate(E: map<Entity, Components>, e: Entity) {
    e in E && !E[e].playerUnit
  }

  /** The change starts a request: an RVOAgent added to a live entity
      without PlayerUnit that has a Transform. */
  predicate Starts(E: map<Entity, Components>, c: AgentChange) {
    IsCandidate(E, c.entity) && IsAdded(c) && E[c.entity].transform.Some?
  }

  /** The change logs the missing-Transform warning: an RVOAgent added to a
      live entity without PlayerUnit that has no Transform. */
  predicate Warns(E: map<Entity, Components>, c: AgentChange) {
    IsCandidate(E, c.entity) && IsAdded(c) && E[c.entity].transform.None?
  }

  /** The request started for a change: from the entity's position to the
      fixed target, with three attempts 0.2 s apart. */
  function RequestFor(E: map<Entity, Components>, c: AgentChange): PathRequest
    requires c.entity in E && E[c.entity].transform.Some?
  {
    PathRequest(c.entity, E[c.entity].transform.value.position, TargetPosition,
                LongRangeParams, RequestRetries, RequestRetryDelay)
  }

  /** The requests a scan of `changes` starts, in order. */
  function Requests(E: map<Entity, Components>, changes: seq<AgentChange>): seq<PathRequest>
  {
    if changes == [] then []
    else
      var c := changes[|changes| - 1];
      Requests(E, changes[..|changes| - 1]) +
      if Starts(E, c) then [RequestFor(E, c)] else []
  }

  /** The warnings a scan of `changes` logs, in order. */
  function Warnings(E: map<Entity, Components>, changes: seq<AgentChange>): seq<Warning>
  {
    if changes == [] then []
    else
      var c := changes[|changes| - 1];
      Warnings(E, changes[..|changes| - 1]) +
      if Warns(E, c) then [NoTransform(c.entity)] else []
  }

  /** Every started request comes from an added RVOAgent on a live entity
      without PlayerUnit that has a Transform, starts at that Transform's
      position and heads for the fixed target with three attempts 0.2 s
      apart; and every such change starts one. */
  lemma {:induction false} RequestsExactly(E: map<Entity, Components>, changes: seq<AgentChange>, q: PathRequest)
    ensures q in Requests(E, changes) <==>
            exists i :: 0 <= i < |changes| && IsCandidate(E, changes[i].entity) && IsAdded(changes[i]) &&
                        E[changes[i].entity].transform.Some? && q == RequestFor(E, changes[i])
  {
    if changes != [] {
      var n := |changes| - 1;
      var init := changes[..n];
      RequestsExactly(E, init, q);
      forall i | 0 <= i < n ensures init[i] == changes[i] { }
      var c := changes[n];
      if q in Requests(E, changes) && q !in Requests(E, init) {
        assert IsCandidate(E, c.entity) && IsAdded(c) && E[c.entity].transform.Some? && q == RequestFor(E, c);
      }
    }
  }

  /** The scan starts exactly one request per change record that starts
      one: as many requests as such records. */
  lemma {:induction false} RequestsCount(E: map<Entity, Components>, changes: seq<AgentChange>)
    ensures |Requests(E, changes)| == |set i | 0 <= i < |changes| && Starts(E, changes[i])|
  {
    if changes != [] {
      var n := |changes| - 1;
      var init := changes[..n];
      RequestsCount(E, init);
      var S := set i | 0 <= i < |init| && Starts(E, init[i]);
      var T := set i | 0 <= i < |changes| && Starts(E, changes[i]);
      if Starts(E, changes[n]) {
        assert T == S + {n};
      } else {
        assert T == S;
      }
    }
  }

  /** The scan logs exactly one warning per change record that warns: as
      many warnings as such records. */
  lemma {:induction false} WarningsCount(E: map<Entity, Components>, changes: seq<AgentChange>)
    ensures |Warnings(E, changes)| == |set i | 0 <= i < |changes| && Warns(E, changes[i])|
  {
    if changes != [] {
      var n := |changes| - 1;
      var init := changes[..n];
      WarningsCount(E, init);
      var S := set i | 0 <= i < |init| && Warns(E, init[i]);
      var T := set i | 0 <= i < |changes| && Warns(E, changes[i]);
      if Warns(E, changes[n]) {
        assert T == S + {n};
      } else {
        assert T == S;
      }
    }
  }

  /** An RVOAgent that is updated or removed, rather than added, never
      starts a request. */
  lemma UpdatesNeverStart(E: map<Entity, Components>, changes: seq<AgentChange>, q: PathRequest)
    requires forall i :: 0 <= i < |changes| ==> !IsAdded(changes[i])
    ensures q !in Requests(E, changes)
  {
    RequestsExactly(E, changes, q);
  }

  /** No request is started for an entity that is gone, is a player unit
      or has no Transform. */
  lemma SkippedEntitiesNeverStart(E: map<Entity, Components>, changes: seq<AgentChange>, q: PathRequest)
    requires q in Requests(E, changes)
    ensures q.entity in E && !E[q.entity].playerUnit && E[q.entity].transform == Some(Transform(q.start))
    ensures q.target == TargetPosition && q.params == LongRangeParams
    ensures q.maxRetries == 3 && q.retryDelay == 20
  {
    RequestsExactly(E, changes, q);
  }

  /** A warning is logged exactly for an added RVOAgent on a live entity
      without PlayerUnit that has no Transform. */
  lemma {:induction false} WarningsExactly(E: map<Entity, Components>, changes: seq<AgentChange>, e: Entity)
    ensures NoTransform(e) in Warnings(E, changes) <==>
            exists i :: 0 <= i < |changes| && changes[i].entity == e && IsCandidate(E, e) &&
                        IsAdded(changes[i]) && E[e].transform.None?
  {
    if changes != [] {
      var n := |changes| - 1;
      var init := changes[..n];
      WarningsExactly(E, init, e);
      forall i | 0 <= i < n ensures init[i] == changes[i] { }
    }
  }

  /** pathCalculateSystem's scan of one frame's RVOAgent changes: it skips
      entities that are gone or are player units, ignores changes that do not
      add the component, warns about entities without a Transform and starts
      a request for every other one. The world is only read. */
  method RunPathCalculate(world: World, changes: seq<AgentChange>)
    returns (requests: seq<PathRequest>, warnings: seq<Warning>)
    ensures requests == Requests(world.entities, changes)
    ensures warnings == Warnings(world.entities, changes)
  {
    requests, warnings := [], [];
    for i := 0 to |changes|
      invariant requests == Requests(world.entities, changes[..i])
      invariant warnings == Warnings(world.entities, changes[..i])
    {
      assert changes[..i + 1][..i] == changes[..i];
      var change := changes[i];
      if change.entity !in world.entities {
        continue;
      }
      var comps := world.entities[change.entity];
      if comps.playerUnit {
        continue;
      }
      if change.newValue.Some? && change.oldValue.None? {
        if comps.transform.None? {
          warnings := warnings + [NoTransform(change.entity)];
          continue;
        }
        requests := requests + [PathRequest(change.entity, comps.transform.value.position, TargetPosition,
                                            LongRangeParams, RequestRetries, RequestRetryDelay)];
      }
    }
    assert changes[..|changes|] == changes;
  }

  // ---------------------------------------------------------------------
  // Applying a settled result

  /** The initial PathInfo for a route: standing at waypoint 0, heading for
      waypoint 1. A route of fewer than two waypoints has no waypoint 1, and
      reading it fails (None). */
  function InitialPathInfo(waypoints: seq<PathWaypoint>, path: PathHandle): (r: Option<PathInfo>)
    ensures r.Some? <==> |waypoints| >= 2
    ensures r.Some? ==>
              r.value.currentWaypoint == 0 && r.value.nextWayPoint == 1 &&
              !r.value.isArriveNextPoint &&
              r.value.goalPosition == waypoints[1].position && r.value.path == path
    ensures r.Some? ==> (r.value.isArriveGoal <==> |waypoints| == 2)
  {
    var current := 0;
    var next := current + 1;
    if next < |waypoints| then
      Some(PathInfo(current, waypoints[next].position, next >= |waypoints| - 1, false, next, path))
    else None
  }

  /** Whether the callback takes the success branch. */
  predicate TakesSuccessBranch(r: PathfindingResult) {
    r.success && r.path.Some? && r.waypoints.Some?
  }

  /** The world and the logged warning after the callbacks ran for `result`.
      A failed result is only logged. A successful one whose route cannot be
      read, or whose entity the store has dropped, raises inside the callback
      and is logged by the catch handler. Otherwise PathInfo and Movable are
      inserted. */
  function Completion(E: map<Entity, Components>, e: Entity, result: PathfindingResult)
    : (map<Entity, Components>, Option<Warning>)
  {
    if !TakesSuccessBranch(result) then (E, Some(PathFailed(e, result.error)))
    else
      match InitialPathInfo(result.waypoints.value, result.path.value)
      case None => (E, Some(PathException(e)))
      case Some(info) =>
        if e in E then (E[e := E[e].(pathInfo := Some(info), movable := true)], None)
        else (E, Some(PathException(e)))
  }

  /** A failure leaves the world as it was and logs the failure's error. */
  lemma CompletionOfFailure(E: map<Entity, Components>, e: Entity, result: PathfindingResult)
    requires !result.success
    ensures Completion(E, e, result) == (E, Some(PathFailed(e, result.error)))
  {
  }

  /** A route of two or more waypoints for a live entity attaches the
      initial PathInfo and Movable to that entity, keeps its other components
      and touches no other entity. */
  lemma CompletionOfSuccess(E: map<Entity, Components>, e: Entity, result: PathfindingResult)
    requires TakesSuccessBranch(result) && |result.waypoints.value| >= 2 && e in E
    ensures var (E', w) := Completion(E, e, result);
            w.None? && E'.Keys == E.Keys && e in E' &&
            E'[e].pathInfo == Some(PathInfo(0, result.waypoints.value[1].position,
                                            |result.waypoints.value| == 2, false, 1, result.path.value)) &&
            E'[e].movable &&
            E'[e].rvoAgent == E[e].rvoAgent && E'[e].transform == E[e].transform &&
            E'[e].playerUnit == E[e].playerUnit &&
            forall x :: x in E && x != e ==> E'[x] == E[x]
  {
  }

  /** Whatever the result, no other entity changes, no entity appears or
      disappears, and something changes only when no warning is logged. */
  lemma CompletionFrame(E: map<Entity, Components>, e: Entity, result: PathfindingResult)
    ensures var (E', w) := Completion(E, e, result);
            E'.Keys == E.Keys && (forall x :: x in E && x != e ==> E'[x] == E[x]) &&
            (w.Some? ==> E' == E)
  {
  }

  /** The `.then` callback, with the `.catch` handler for what it raises:
      applies a settled result to the world as it is when the result
      arrives. The entity's existence is not re-checked; an insert into an
      entity the store has dropped is refused and reported. */
  method ApplyPathResult(world: World, e: Entity, result: PathfindingResult) returns (warning: Option<Warning>)
    modifies world
    ensures (world.entities, warning) == Completion(old(world.entities), e, result)
  {
    if result.success && result.path.Some? && result.waypoints.Some? {
      var waypoints := result.waypoints.value;
      var current := 0;
      var next := current + 1;
      if next >= |waypoints| {
        // waypoints[next] is missing: the callback raises
        warning := Some(PathException(e));
        return;
      }
      var info := PathInfo(current, waypoints[next].position, next >= |waypoints| - 1, false, next,
                           result.path.value);
      assert InitialPathInfo(waypoints, result.path.value) == Some(info);
      var ok := world.InsertPathInfo(e, info);
      if !ok {
        warning := Some(PathException(e));
        return;
      }
      ghost var before := old(world.entities);
      ok := world.InsertMovable(e);
      assert world.entities == before[e := before[e].(pathInfo := Some(info), movable := true)];
      warning := None;
    } else {
      warning := Some(PathFailed(e, result.error));
    }
  }

  // ---------------------------------------------------------------------
  // The two steps together

  /** A request whose retries all fail leaves the world untouched and logs
      the aggregated error naming three attempts and the last error. */
  lemma RequestFailureLeavesWorld(E: map<Entity, Components>, e: Entity, runs: nat -> PathRun)
    requires AllAttemptsFail(runs, RequestRetries)
    ensures Completion(E, e, Retry(runs, RequestRetries).result) ==
            (E, Some(PathFailed(e, Some(RetryMessage(3, LastError(runs, 3))))))
  {
    RetryExhausted(runs, RequestRetries);
  }

  /** A request whose first successful attempt (of at most three) returns a
      route of two or more waypoints gives a live entity that attempt's path,
      heading for the route's second waypoint, and makes it Movable. */
  lemma RequestSuccessAttaches(E: map<Entity, Components>, e: Entity, runs: nat -> PathRun, a: nat)
    requires FirstSuccessAt(runs, RequestRetries, a)
    requires |runs(a).waypoints| >= 2 && e in E
    ensures var (E', w) := Completion(E, e, Retry(runs, RequestRetries).result);
            w.None? && e in E' && E'[e].movable &&
            E'[e].pathInfo == Some(PathInfo(0, runs(a).waypoints[1].position,
                                            |runs(a).waypoints| == 2, false, 1, runs(a).path))
  {
    RetryReturnsFirstSuccess(runs, RequestRetries, a);
    assert Attempt(runs, a).result == Succeeded(runs(a));
    CompletionOfSuccess(E, e, Retry(runs, RequestRetries).result);
  }
}

=== FILE: pathfinding_async.dfy ===
/** The route request protocol of the plugin example: one request polled
    against a timeout (computePathAsync) and a bounded retry loop around it
    (computePathWithRetry).

    Time is discrete: one tick is the 0.01 s poll interval. The provider is
    not called; each attempt is described by a PathRun that gives the status
    the poll would read at every tick, and the path and waypoints it hands
    back on success. */
module PathfindingAsync {
  import opened Text

  datatype Option<T> = None | Some(value: T)

  /** Roblox's Enum.PathStatus. */
  datatype PathStatus =
    | Success
    | ClosestNoPath
    | ClosestOutOfRange
    | FailStartNotEmpty
    | FailFinishNotEmpty
    | NoPath

  /** How an enum item renders inside a template string. */
  function StatusName(s: PathStatus): string {
    match s
    case Success => "Enum.PathStatus.Success"
    case ClosestNoPath => "Enum.PathStatus.ClosestNoPath"
    case ClosestOutOfRange => "Enum.PathStatus.ClosestOutOfRange"
    case FailStartNotEmpty => "Enum.PathStatus.FailStartNotEmpty"
    case FailFinishNotEmpty => "Enum.PathStatus.FailFinishNotEmpty"
    case NoPath => "Enum.PathStatus.NoPath"
  }

  /** A position; kept exact and never computed with. */
  datatype Vector3 = Vector3(x: real, y: real, z: real)

  datatype WaypointAction = Walk | Jump | Custom

  datatype PathWaypoint = PathWaypoint(position: Vector3, action: WaypointAction)

  /** The Path object created for one attempt, by identity. */
  datatype PathHandle = PathHandle(id: nat)

  /** One provider computation as seen by the poller: the status read at
      each tick, and what GetWaypoints returns once it reads Success. */
  datatype PathRun = PathRun(status: nat -> PathStatus, path: PathHandle, waypoints: seq<PathWaypoint>)

  /** PathfindingResult: the optional fields of the interface are Options. */
  datatype PathfindingResult = PathfindingResult(
    error: Option<string>,
    path: Option<PathHandle>,
    success: bool,
    waypoints: Option<seq<PathWaypoint>>)

  /** Ticks per second: the poll waits 0.01 s between reads. */
  const TicksPerSecond: nat := 100
  /** Default timeout of computePathAsync, in seconds. */
  const DefaultTimeout: nat := 5

  const UnknownError: string := "未知错误"

  function TimeoutMessage(timeout: nat): string {
    "寻路超时 (" + NatToString(timeout) + "秒)"
  }

  function StatusMessage(s: PathStatus): string {
    "寻路失败，状态: " + StatusName(s)
  }

  const RetryPrefix: string := "寻路失败，已重试 "
  const RetryMiddle: string := " 次。最后错误: "

  function RetryMessage(maxRetries: int, lastError: string): string {
    RetryPrefix + IntToString(maxRetries) + RetryMiddle + lastError
  }

  function Succeeded(run: PathRun): PathfindingResult {
    PathfindingResult(None, Some(run.path), true, Some(run.waypoints))
  }

  function Failed(message: string): PathfindingResult {
    PathfindingResult(Some(message), None, false, None)
  }

  /** Exactly one of waypoints and error is present, and the path goes with
      the waypoints. */
  predicate WellShaped(r: PathfindingResult) {
    if r.success then r.error.None? && r.path.Some? && r.waypoints.Some?
    else r.error.Some? && r.path.None? && r.waypoints.None?
  }

  // ---------------------------------------------------------------------
  // computePathAsync: the poll loop racing the timeout timer

  /** Tick at which the timeout timer fires. */
  function Deadline(timeout: nat): nat {
    timeout * TicksPerSecond
  }

  /** Number of polls that read a status before the timer can settle the
      request. The first poll runs synchronously, before the timer can fire,
      so there is always one; a later poll at the deadline tick loses the tie
      to the timer. */
  function PollWindow(timeout: nat): (w: nat)
    ensures w >= 1
  {
    if Deadline(timeout) == 0 then 1 else Deadline(timeout)
  }

  /** The value a request settles with, and the tick at which it settles. */
  datatype Settlement = Settlement(result: PathfindingResult, tick: nat)

  /** What a decisive (non-NoPath) status resolves with. */
  function Verdict(run: PathRun, s: PathStatus): PathfindingResult {
    if s == Success then Succeeded(run) else Failed(StatusMessage(s))
  }

  /** The race from the poll at tick `k` onwards, all earlier polls having
      read NoPath. */
  function RaceFrom(run: PathRun, timeout: nat, k: nat): (r: Settlement)
    requires k < PollWindow(timeout)
    ensures k <= r.tick <= Deadline(timeout)
    ensures WellShaped(r.result)
    ensures r.result.success ==> r.result == Succeeded(run)
    // `run` in the measure keeps the verifier from unrolling all the polls
    // of a literal timeout
    decreases PollWindow(timeout) - k, run
  {
    match run.status(k)
    case Success => Settlement(Succeeded(run), k)
    case NoPath =>
      if k + 1 < PollWindow(timeout) then RaceFrom(run, timeout, k + 1)
      else Settlement(Failed(TimeoutMessage(timeout)), Deadline(timeout))
    case _ => Settlement(Failed(StatusMessage(run.status(k))), k)
  }

  /** The settlement of one computePathAsync call. */
  function Race(run: PathRun, timeout: nat): Settlement {
    RaceFrom(run, timeout, 0)
  }

  /** The poll at tick `k` is the first to read a status other than NoPath,
      and it reads it before the timer fires. */
  ghost predicate DecidedAt(run: PathRun, timeout: nat, k: nat) {
    k < PollWindow(timeout) && run.status(k) != NoPath &&
    forall j :: 0 <= j < k ==> run.status(j) == NoPath
  }

  /** Every poll before the timer fires reads NoPath. */
  ghost predicate NeverDecided(run: PathRun, timeout: nat) {
    forall j :: 0 <= j < PollWindow(timeout) ==> run.status(j) == NoPath
  }

  lemma {:induction false} RaceFromDecided(run: PathRun, timeout: nat, i: nat, k: nat)
    requires i <= k
    requires DecidedAt(run, timeout, k)
    ensures RaceFrom(run, timeout, i) == Settlement(Verdict(run, run.status(k)), k)
    decreases k - i
  {
    if i < k {
      assert run.status(i) == NoPath;
      RaceFromDecided(run, timeout, i + 1, k);
    }
  }

  /** The first decisive poll settles the request, at its own tick. */
  lemma RaceDecided(run: PathRun, timeout: nat, k: nat)
    requires DecidedAt(run, timeout, k)
    ensures Race(run, timeout) == Settlement(Verdict(run, run.status(k)), k)
  {
    RaceFromDecided(run, timeout, 0, k);
  }

  lemma {:induction false} RaceFromTimesOut(run: PathRun, timeout: nat, i: nat)
    requires i < PollWindow(timeout)
    requires NeverDecided(run, timeout)
    ensures RaceFrom(run, timeout, i) == Settlement(Failed(TimeoutMessage(timeout)), Deadline(timeout))
    decreases PollWindow(timeout) - i
  {
    assert run.status(i) == NoPath;
    if i + 1 < PollWindow(timeout) {
      RaceFromTimesOut(run, timeout, i + 1);
    }
  }

  /** With no decisive poll before the deadline the timer settles the
      request with the timeout error, at the deadline. */
  lemma RaceTimesOut(run: PathRun, timeout: nat)
    requires NeverDecided(run, timeout)
    ensures Race(run, timeout) == Settlement(Failed(TimeoutMessage(timeout)), Deadline(timeout))
  {
    RaceFromTimesOut(run, timeout, 0);
  }

  lemma {:induction false} FirstDecisiveFrom(run: PathRun, timeout: nat, i: nat)
    requires i <= PollWindow(timeout)
    requires forall j :: 0 <= j < i ==> run.status(j) == NoPath
    ensures NeverDecided(run, timeout) || exists k :: DecidedAt(run, timeout, k)
    decreases PollWindow(timeout) - i
  {
    if i < PollWindow(timeout) {
      if run.status(i) != NoPath {
        assert DecidedAt(run, timeout, i);
      } else {
        FirstDecisiveFrom(run, timeout, i + 1);
      }
    }
  }

  /** Either the timer settles the request or some poll is the first
      decisive one. */
  lemma RaceCases(run: PathRun, timeout: nat)
    ensures NeverDecided(run, timeout) || exists k :: DecidedAt(run, timeout, k)
  {
    FirstDecisiveFrom(run, timeout, 0);
  }

  /** A request succeeds exactly when the first decisive poll before the
      deadline reads Success. */
  lemma RaceSuccessIff(run: PathRun, timeout: nat)
    ensures Race(run, timeout).result.success <==>
            exists k :: DecidedAt(run, timeout, k) && run.status(k) == Success
  {
    RaceCases(run, timeout);
    if NeverDecided(run, timeout) {
      RaceTimesOut(run, timeout);
    } else {
      var k :| DecidedAt(run, timeout, k);
      RaceDecided(run, timeout, k);
    }
  }

  /** computePathAsync. Polls straight away, then once per tick while the
      status reads NoPath; the first resolve, by a poll or by the timer,
      settles the call and ends it. Returns the result and the tick it
      settled at. */
  method ComputePathAsync(run: PathRun, timeout: nat) returns (result: PathfindingResult, elapsed: nat)
    ensures Settlement(result, elapsed) == Race(run, timeout)
    ensures forall k :: DecidedAt(run, timeout, k) ==>
              result == Verdict(run, run.status(k)) && elapsed == k
    ensures NeverDecided(run, timeout) ==>
              result == Failed(TimeoutMessage(timeout)) && elapsed == Deadline(timeout)
  {
    var settled := false;
    var tick := 0;
    result, elapsed := Failed(""), 0;
    while !settled
      invariant tick < PollWindow(timeout)
      invariant !settled ==> RaceFrom(run, timeout, tick) == Race(run, timeout)
      invariant settled ==> Settlement(result, elapsed) == Race(run, timeout)
      decreases if settled then 0 else 1, PollWindow(timeout) - tick
    {
      var status := run.status(tick);
      if status == Success {
        // the timer is cancelled and the waypoints are fetched
        result, elapsed, settled := Succeeded(run), tick, true;
      } else if status == NoPath {
        if tick + 1 < PollWindow(timeout) {
          tick := tick + 1;
        } else {
          // the timer fires no later than the next poll and wins the tie
          result, elapsed, settled := Failed(TimeoutMessage(timeout)), Deadline(timeout), true;
        }
      } else {
        // the timer is cancelled and the status is reported
        result, elapsed, settled := Failed(StatusMessage(status)), tick, true;
      }
    }
    forall k | DecidedAt(run, timeout, k)
      ensures result == Verdict(run, run.status(k)) && elapsed == k
    {
      RaceDecided(run, timeout, k);
    }
    if NeverDecided(run, timeout) {
      RaceTimesOut(run, timeout);
    }
  }

  // ---------------------------------------------------------------------
  // computePathWithRetry: the bounded retry loop

  /** Attempt `a` (counted from 1) runs against `runs(a)` with the default
      timeout. */
  function Attempt(runs: nat -> PathRun, a: nat): Settlement {
    Race(runs(a), DefaultTimeout)
  }

  /** `result.error || "未知错误"`: an absent or empty error reads as unknown. */
  function RecordedError(r: PathfindingResult): (e: string)
    ensures e != ""
    ensures r.error.Some? && r.error.value != "" ==> e == r.error.value
    ensures !(r.error.Some? && r.error.value != "") ==> e == UnknownError
  {
    if r.error.Some? && r.error.value != "" then r.error.value else UnknownError
  }

  /** What a retry loop returns, with the number of attempts it made. */
  datatype RetryOutcome = RetryOutcome(result: PathfindingResult, attempts: nat)

  /** The retry loop from attempt `attempt` onwards. */
  function RetryFrom(runs: nat -> PathRun, maxRetries: int, attempt: nat, lastError: string): (r: RetryOutcome)
    requires attempt >= 1
    ensures WellShaped(r.result)
    ensures attempt - 1 <= MaxAttempts(maxRetries) ==> r.attempts <= MaxAttempts(maxRetries)
    ensures r.result.success ==> attempt <= r.attempts && r.result == Attempt(runs, r.attempts).result
    decreases if attempt <= maxRetries then maxRetries - attempt + 1 else 0
  {
    if attempt > maxRetries then RetryOutcome(Failed(RetryMessage(maxRetries, lastError)), attempt - 1)
    else
      var res := Attempt(runs, attempt).result;
      if res.success then RetryOutcome(res, attempt)
      else RetryFrom(runs, maxRetries, attempt + 1, RecordedError(res))
  }

  /** One computePathWithRetry call. */
  function Retry(runs: nat -> PathRun, maxRetries: int): RetryOutcome {
    RetryFrom(runs, maxRetries, 1, "")
  }

  /** Attempt `a` is the first one that succeeds. */
  ghost predicate FirstSuccessAt(runs: nat -> PathRun, maxRetries: int, a: nat) {
    1 <= a <= maxRetries && Attempt(runs, a).result.success &&
    forall b :: 1 <= b < a ==> !Attempt(runs, b).result.success
  }

  ghost predicate AllAttemptsFail(runs: nat -> PathRun, maxRetries: int) {
    forall a :: 1 <= a <= maxRetries ==> !Attempt(runs, a).result.success
  }

  /** The error text the exhausted loop reports as its last error. */
  function LastError(runs: nat -> PathRun, maxRetries: int): string {
    if maxRetries >= 1 then RecordedError(Attempt(runs, maxRetries).result) else ""
  }

  /** Number of attempts the loop makes when every one of them fails. */
  function MaxAttempts(maxRetries: int): nat {
    if maxRetries > 0 then maxRetries else 0
  }

  /** Total ticks spent polling in the first `n` attempts, each counted from
      its first poll; the provider calls before it take no ticks here. */
  function AttemptsTime(runs: nat -> PathRun, n: nat): nat {
    if n == 0 then 0 else AttemptsTime(runs, n - 1) + Attempt(runs, n).tick
  }

  lemma {:induction false} RetryFromFirstSuccess(runs: nat -> PathRun, maxRetries: int, i: nat, lastError: string, a: nat)
    requires 1 <= i <= a
    requires FirstSuccessAt(runs, maxRetries, a)
    ensures RetryFrom(runs, maxRetries, i, lastError) == RetryOutcome(Attempt(runs, a).result, a)
    decreases a - i
  {
    if i < a {
      RetryFromFirstSuccess(runs, maxRetries, i + 1, RecordedError(Attempt(runs, i).result), a);
    }
  }

  /** The loop hands back the first successful attempt's result unchanged,
      after exactly that many attempts. */
  lemma RetryReturnsFirstSuccess(runs: nat -> PathRun, maxRetries: int, a: nat)
    requires FirstSuccessAt(runs, maxRetries, a)
    ensures Retry(runs, maxRetries) == RetryOutcome(Attempt(runs, a).result, a)
    ensures Retry(runs, maxRetries).result.success
  {
    RetryFromFirstSuccess(runs, maxRetries, 1, "", a);
  }

  lemma {:induction false} RetryFromExhausted(runs: nat -> PathRun, maxRetries: int, i: nat, lastError: string)
    requires i >= 1
    requires AllAttemptsFail(runs, maxRetries)
    requires lastError == if i == 1 then "" else RecordedError(Attempt(runs, i - 1).result)
    requires i <= maxRetries + 1 || i == 1
    ensures RetryFrom(runs, maxRetries, i, lastError) ==
            RetryOutcome(Failed(RetryMessage(maxRetries, LastError(runs, maxRetries))), MaxAttempts(maxRetries))
    decreases if i <= maxRetries then maxRetries - i + 1 else 0
  {
    if i <= maxRetries {
      RetryFromExhausted(runs, maxRetries, i + 1, RecordedError(Attempt(runs, i).result));
    }
  }

  /** When every attempt fails the loop makes every allowed attempt and
      reports the attempt count and the last attempt's error; with no attempt
      at all the last error is empty. */
  lemma RetryExhausted(runs: nat -> PathRun, maxRetries: int)
    requires AllAttemptsFail(runs, maxRetries)
    ensures Retry(runs, maxRetries) ==
            RetryOutcome(Failed(RetryMessage(maxRetries, LastError(runs, maxRetries))), MaxAttempts(maxRetries))
  {
    RetryFromExhausted(runs, maxRetries, 1, "");
  }

  lemma {:induction false} FirstSuccessFrom(runs: nat -> PathRun, maxRetries: int, i: nat)
    requires i >= 1
    requires forall b :: 1 <= b < i ==> !Attempt(runs, b).result.success
    ensures AllAttemptsFail(runs, maxRetries) || exists a :: FirstSuccessAt(runs, maxRetries, a)
    decreases if i <= maxRetries then maxRetries - i + 1 else 0
  {
    if i <= maxRetries {
      if Attempt(runs, i).result.success {
        assert FirstSuccessAt(runs, maxRetries, i);
      } else {
        FirstSuccessFrom(runs, maxRetries, i + 1);
      }
    }
  }

  /** Either every attempt fails or one of them is the first success. */
  lemma RetryCases(runs: nat -> PathRun, maxRetries: int)
    ensures AllAttemptsFail(runs, maxRetries) || exists a :: FirstSuccessAt(runs, maxRetries, a)
  {
    FirstSuccessFrom(runs, maxRetries, 1);
  }

  /** The retry loop succeeds exactly when some attempt within the budget
      succeeds. */
  lemma RetrySuccessIff(runs: nat -> PathRun, maxRetries: int)
    ensures Retry(runs, maxRetries).result.success <==>
            exists a :: 1 <= a <= maxRetries && Attempt(runs, a).result.success
  {
    RetryCases(runs, maxRetries);
    if AllAttemptsFail(runs, maxRetries) {
      RetryExhausted(runs, maxRetries);
    } else {
      var a :| FirstSuccessAt(runs, maxRetries, a);
      RetryReturnsFirstSuccess(runs, maxRetries, a);
    }
  }

  /** The exhaustion message carries the attempt count and the last error
      so that both can be read back from it. */
  lemma RetryMessageInjective(m1: int, e1: string, m2: int, e2: string)
    requires RetryMessage(m1, e1) == RetryMessage(m2, e2)
    ensures m1 == m2 && e1 == e2
  {
    var n1, n2 := IntToString(m1), IntToString(m2);
    var x1, x2 := RetryMiddle + e1, RetryMiddle + e2;
    assert RetryMessage(m1, e1) == RetryPrefix + (n1 + x1);
    assert RetryMessage(m2, e2) == RetryPrefix + (n2 + x2);
    assert n1 + x1 == RetryMessage(m1, e1)[|RetryPrefix|..];
    assert n2 + x2 == RetryMessage(m2, e2)[|RetryPrefix|..];
    WordSplit(n1, x1, n2, x2);
    IntToStringInjective(m1, m2);
    assert e1 == x1[|RetryMiddle|..];
    assert e2 == x2[|RetryMiddle|..];
  }

  /** A timeout and a provider failure are told apart by their messages. */
  lemma TimeoutIsNotStatusFailure(timeout: nat, s: PathStatus)
    ensures TimeoutMessage(timeout) != StatusMessage(s)
  {
    assert TimeoutMessage(timeout)[2] == '超';
    assert StatusMessage(s)[2] == '失';
  }

  // Scenarios

  function Scenario3NoPathThenSuccess(w0: PathWaypoint, w1: PathWaypoint): PathRun {
    PathRun(k => if k < 3 then NoPath else Success, PathHandle(1), [w0, w1])
  }

  /** NoPath for the first three polls, then Success with two waypoints:
      the request succeeds at the fourth poll, 0.03 s after it started. */
  lemma ScenarioSuccessAfterThreeNoPath(w0: PathWaypoint, w1: PathWaypoint)
    ensures Race(Scenario3NoPathThenSuccess(w0, w1), 1) ==
            Settlement(PathfindingResult(None, Some(PathHandle(1)), true, Some([w0, w1])), 3)
  {
    RaceDecided(Scenario3NoPathThenSuccess(w0, w1), 1, 3);
  }

  /** A path whose computation has finished with NoPath: the status never
      changes again, so the attempt ends with the timeout error after the
      full timeout. */
  lemma ScenarioFinishedNoPath(p: PathHandle, timeout: nat)
    ensures Race(PathRun(k => NoPath, p, []), timeout) ==
            Settlement(Failed(TimeoutMessage(timeout)), Deadline(timeout))
  {
    RaceTimesOut(PathRun(k => NoPath, p, []), timeout);
  }

  /** A provider that always reports ClosestOutOfRange: three failed
      attempts, and the message names the count and the status. */
  lemma ScenarioAlwaysFailing(p: PathHandle)
    ensures var runs := (a: nat) => PathRun(k => ClosestOutOfRange, p, []);
            Retry(runs, 3) == RetryOutcome(Failed(RetryMessage(3, StatusMessage(ClosestOutOfRange))), 3)
  {
    var runs := (a: nat) => PathRun(k => ClosestOutOfRange, p, []);
    forall a | 1 <= a <= 3 ensures Attempt(runs, a).result == Failed(StatusMessage(ClosestOutOfRange)) {
      RaceDecided(runs(a), DefaultTimeout, 0);
    }
    RetryExhausted(runs, 3);
  }

  /** One more wait adds one more delay; the loop's elapsed-time invariant
      is kept with this step. */
  lemma MulSucc(w: nat, d: nat)
    ensures (w + 1) * d == w * d + d
  {
  }

  /** computePathWithRetry. Attempts run one after another; the first
      success is returned at once, a failure records its error and, unless it
      was the last attempt, waits `retryDelay` ticks. Returns the result, the
      number of attempts made, the number of waits and the ticks spent
      polling and waiting. */
  method ComputePathWithRetry(runs: nat -> PathRun, maxRetries: int, retryDelay: nat)
    returns (result: PathfindingResult, attempts: nat, waits: nat, elapsed: nat)
    ensures RetryOutcome(result, attempts) == Retry(runs, maxRetries)
    ensures waits == if attempts == 0 then 0 else attempts - 1
    ensures elapsed == AttemptsTime(runs, attempts) + waits * retryDelay
  {
    var lastError := "";
    var attempt := 1;
    attempts, waits, elapsed := 0, 0, 0;
    while attempt <= maxRetries
      invariant attempt >= 1 && attempts == attempt - 1
      invariant waits == if attempt > maxRetries && attempts > 0 then attempts - 1 else attempts
      invariant RetryFrom(runs, maxRetries, attempt, lastError) == Retry(runs, maxRetries)
      invariant elapsed == AttemptsTime(runs, attempts) + waits * retryDelay
      decreases maxRetries - attempt + 1
    {
      var r, t := ComputePathAsync(runs(attempt), DefaultTimeout);
      assert Settlement(r, t) == Attempt(runs, attempt);
      attempts := attempts + 1;
      elapsed := elapsed + t;
      if r.success {
        result := r;
        return;
      }
      lastError := RecordedError(r);
      if attempt < maxRetries {
        MulSucc(waits, retryDelay);
        waits := waits + 1;
        elapsed := elapsed + retryDelay;
      }
      attempt := attempt + 1;
    }
    result := Failed(RetryMessage(maxRetries, lastError));
  }
}

=== FILE: text.dfy ===
/** Decimal rendering of integers, as a template string `${n}` renders a
    whole number, together with the parser that reads it back. The parser is
    there only to state that the rendering loses nothing. */
module Text {

  predicate IsDigit(c: char) {
    '0' <= c <= '9'
  }

  predicate AllDigits(s: string) {
    forall i :: 0 <= i < |s| ==> IsDigit(s[i])
  }

  function DigitChar(d: nat): (c: char)
    requires d < 10
    ensures IsDigit(c)
    ensures (c as int) - ('0' as int) == d
  {
    (('0' as int) + d) as char
  }

  /** Decimal digits of `n`, most significant first, without leading zeros. */
  function NatToString(n: nat): (s: string)
    ensures |s| >= 1 && AllDigits(s)
    ensures |s| > 1 ==> s[0] != '0'
    decreases n
  {
    if n < 10 then [DigitChar(n)]
    else NatToString(n / 10) + [DigitChar(n % 10)]
  }

  /** A whole number as text: a minus sign before the digits of a negative one. */
  function IntToString(i: int): (s: string)
    ensures |s| >= 1
    ensures forall k :: 0 <= k < |s| ==> IsDigit(s[k]) || (k == 0 && s[k] == '-')
  {
    if i < 0 then "-" + NatToString(-i) else NatToString(i)
  }

  /** Value of a string of decimal digits. */
  function DigitsValue(s: string): nat
    requires AllDigits(s)
  {
    if s == [] then 0
    else DigitsValue(s[..|s| - 1]) * 10 + ((s[|s| - 1] as int) - ('0' as int))
  }

  /** Reads back what IntToString writes. */
  function ParseInt(s: string): int
    requires |s| >= 1
    requires AllDigits(s[1..])
    requires IsDigit(s[0]) || s[0] == '-'
  {
    if s[0] == '-' then -(DigitsValue(s[1..]) as int) else DigitsValue(s)
  }

  lemma {:induction false} NatToStringRoundTrip(n: nat)
    ensures DigitsValue(NatToString(n)) == n
    decreases n
  {
    if n >= 10 {
      var s := NatToString(n);
      assert s[..|s| - 1] == NatToString(n / 10);
      NatToStringRoundTrip(n / 10);
    }
  }

  lemma IntToStringRoundTrip(i: int)
    ensures ParseInt(IntToString(i)) == i
  {
    var s := IntToString(i);
    if i < 0 {
      assert s[1..] == NatToString(-i);
      NatToStringRoundTrip(-i);
    } else {
      NatToStringRoundTrip(i);
    }
  }

  /** Two different numbers never render to the same text. */
  lemma IntToStringInjective(i: int, j: int)
    requires IntToString(i) == IntToString(j)
    ensures i == j
  {
    IntToStringRoundTrip(i);
    IntToStringRoundTrip(j);
  }

  /** Index of the first space in `s`, or |s| when there is none. */
  function FirstSpace(s: string): (i: nat)
    ensures i <= |s|
  {
    if s == [] || s[0] == ' ' then 0 else 1 + FirstSpace(s[1..])
  }

  /** A word without spaces followed by text starting with a space: the first
      space is where the word ends. */
  lemma {:induction false} FirstSpaceAfterWord(w: string, rest: string)
    requires forall k :: 0 <= k < |w| ==> w[k] != ' '
    requires |rest| > 0 && rest[0] == ' '
    ensures FirstSpace(w + rest) == |w|
  {
    if w != [] {
      assert (w + rest)[1..] == w[1..] + rest;
      FirstSpaceAfterWord(w[1..], rest);
    }
  }

  /** Text that joins a word without spaces to text starting with a space
      splits back into the same two parts. */
  lemma WordSplit(a: string, x: string, b: string, y: string)
    requires forall k :: 0 <= k < |a| ==> a[k] != ' '
    requires forall k :: 0 <= k < |b| ==> b[k] != ' '
    requires |x| > 0 && x[0] == ' ' && |y| > 0 && y[0] == ' '
    requires a + x == b + y
    ensures a == b && x == y
  {
    FirstSpaceAfterWord(a, x);
    FirstSpaceAfterWord(b, y);
    assert a == (a + x)[..|a|];
    assert b == (b + y)[..|b|];
    assert x == (a + x)[|a|..];
    assert y == (b + y)[|b|..];
  }
}
